=== FILE: README.md ===
# NT-303 control plane in Dafny

This project models the control plane of NT-303, a TB-303 bass-synth plugin for the
Expert Sleepers Disting NT. The model is pure functions over immutable state, and the
project proves properties of those functions. It covers four parts:

- **The private heap** (`Heap`, with `HeapWord` for the firmware's 32-bit arithmetic). The
  plugin serves every `new` from a pool registered at construction. It bump-allocates, keeps a
  first-fit, LIFO, non-coalescing free list, and treats a free outside the pool as a silent no-op.
  Addresses are offsets into the pool. The block headers are a map from block start to the size
  recorded there. The free list is a sequence of `(start, size)` blocks, head first. A `Null`
  result stands for running out of memory; the firmware hangs at that point instead.
- **The CV gate and the MIDI decoder** (`Voice`, `Midi`, with the engine calls in `Engine`).
  Each audio sample passes through a Schmitt trigger with asymmetric thresholds. A rising edge
  sends a note-on whose velocity comes from the accent CV. A falling edge sends all-notes-off.
  While the gate is high, the pitch and accent CVs are forwarded. MIDI channel messages are
  filtered by channel (0 = omni) and dispatched on their status nibble. The synthesis engine
  (`rosic::Open303`) is not modelled: its calls become a returned `seq<EngineCall>`.
- **Soft takeover** (`SoftTakeover`). There are three pots. Each pot's logical target follows
  the knob relatively, is clamped to [0,1], and snaps to the knob when the two are within 0.02
  of each other or the knob is at a rail. The module also covers encoder stepping with
  clamping, the countdown of the transient display, and linear pot/value scaling.
- **`cvToMidiNote`** (`Compat`). It converts a CV at 1 unit per octave into a MIDI note,
  clamped to 0..127 and rounded half up.

The target CPU is 32-bit, so `size_t` has 32 bits and the block header (a size and a
pointer) takes 8 bytes. Floats are modelled as exact reals.

Two behaviours of the code are worth stating up front:

- **Relative tracking keeps a desynced knob's offset.** A knob at 0.49 under a target of
  0.79 that moves to 0.78 does not snap the target to 0.78. The target keeps the 0.30 offset,
  is pushed against 1.0 and stays out of sync until the knob comes within 0.02 of the top
  (`SoftTakeover.DesyncedKnobScenario`).
- **The CV path has a fixed note.** `step` always triggers note 60 and forwards the pitch CV
  as an oscillator frequency. It has no quantized pitch mode and never calls `cvToMidiNote`.

## Model

| member | source | states |
|---|---|---|
| Heap.AlignUp | src/nt_303.cpp:30-32 | the result is the least multiple of 8 that is at least the input |
| Heap.BlockSize | src/nt_303.cpp:44-45 | a block is aligned, holds the request plus its header, is never below 32 bytes, and is the least such size |
| Heap.InitHeap | src/nt_303.cpp:34-39 | a registered pool starts well formed, with nothing handed out and an empty free list; a null pool leaves the heap unusable |
| Heap.FirstFit | src/nt_303.cpp:47-56 | finds the first free block in list order that is large enough: every earlier block is too small, and "none" means no block fits |
| Heap.Alloc | src/nt_303.cpp:41-68 | the result is null exactly when the heap is uninitialised, or no free block fits and the bump would pass the pool end; a null result leaves the heap unchanged; the cursor only grows, by 0 or by the block size |
| Heap.Free | src/nt_303.cpp:70-78 | a no-op for null, an uninitialised heap, or a pointer outside the pool; otherwise pushes the block, with its header size, at the head of the free list; the cursor and the headers do not change. A pointer inside the pool must have a header and its block must not be free already |
| Heap.FreedIsNotFreeable | src/nt_303.cpp:70-78 | a pointer just given back may not be given back again: its block is on the free list, where a second `heapFree` would link it into itself |
| Heap.FreePreservesValid | src/nt_303.cpp:70-78 | giving back a pointer the allocator handed out keeps the heap well formed: the pushed entry agrees with the header it was read from |
| Heap.AllocBumps | src/nt_303.cpp:58-67 | with no fitting free block and room left, the block starts at the old cursor, the cursor grows by exactly the block size, a header recording that size is written, and the free list is untouched |
| Heap.AllocReusesFirstFit | src/nt_303.cpp:47-56 | the first fitting block is unlinked and handed out unsplit; the other free blocks keep their order; the cursor and headers do not change |
| Heap.ReuseHoldsRequest | src/nt_303.cpp:47-56 | handing out a fitting free block whole keeps the heap well formed, and the pointer is aligned, inside the pool, and its block holds the request |
| Heap.BumpHoldsRequest | src/nt_303.cpp:58-67 | carving a fresh block at the cursor, when the pool has room, keeps the heap well formed, and the pointer is aligned, inside the pool, and its block holds the request |
| Heap.AllocPreservesValid | src/nt_303.cpp:41-68 | allocation keeps the cursor within the pool and the blocks aligned, at least 32 bytes and disjoint; the returned pointer is aligned and inside the pool, and its block holds the whole request |
| Heap.FreeThenAllocReuses | src/nt_303.cpp:47-78 | LIFO: freeing a block and then requesting no more than it holds returns the same pointer and exactly the heap as it was before the free |
| Heap.AllocatedIsFreeable | src/nt_303.cpp:62-73 | a pointer the allocator returns lies inside the pool, has a header, and its block holds the rounded request |
| Heap.CycleReturns | src/nt_303.cpp:47-78 | freeing a pointer that may be given back and allocating the same size again returns exactly the earlier pointer and heap |
| Heap.ChurnStaysPut | src/nt_303.cpp:41-78 | from a result whose pointer may be given back, any number of free-and-allocate cycles of the same size changes neither the pointer nor the heap |
| Heap.ChurnIsStable | src/nt_303.cpp:41-78 | any number of free-and-allocate cycles of the same size returns the same pointer and heap as the first allocation, so such cycles never exhaust the pool |
| HeapWord.AlignUpWord | src/nt_303.cpp:30-32 | on a 32-bit size_t the rounded size is aligned; it covers the input unless the addition wraps, and then it is below 8 |
| HeapWord.BlockSizeWord | src/nt_303.cpp:44-45 | on a 32-bit size_t the block size is aligned and at least 32; it covers the request plus header when the sums do not wrap, and is exactly 32 when they do |
| HeapWord.AllocAsWritten | src/nt_303.cpp:41-68 | heapAlloc with wrapping size_t sums; a null result leaves the heap unchanged |
| HeapWord.AsWrittenAgrees | src/nt_303.cpp:41-68 | when no 32-bit sum wraps, the compiled allocator equals Heap.Alloc |
| HeapWord.HugeRequestGetsSmallBlock | src/nt_303.cpp:44-45 | a request of 2^32 - 8 bytes gets a 32-byte block; the unbounded allocator returns null |
| HeapWord.BumpCursorWraps | src/nt_303.cpp:58-65 | after one 24-byte allocation, a request of 2^32 - 24 bytes passes the pool-bound test and moves the cursor back from 32 to 16; the unbounded allocator returns null |
| Compat.CvToMidiNote | src/compat.h:16-21 | the note lies in 0..127 and is the integer nearest to the clamped 60 + 12·cv, with halves rounding up |
| Compat.ZeroCvIsMiddleC | src/compat.h:17-20 | a CV of 0 gives note 60 |
| Compat.CvToMidiNoteMonotone | src/compat.h:17-20 | a higher CV never gives a lower note |
| Compat.OneUnitIsOneOctave | src/compat.h:17-20 | in the unclamped range, raising the CV by 1 raises the note by exactly 12 |
| Compat.UnclampedRoundsHalfUp | src/compat.h:20 | in the unclamped range, the note is floor(60 + 12·cv + 0.5), which is what the cast computes for a non-negative value |
| Compat.CvToMidiNoteSaturates | src/compat.h:18-19 | cv ≤ -5 gives 0 and cv ≥ 67/12 gives 127 |
| SoftTakeover.InitSoftTakeover | src/nt_soft_takeover.h:30-40 | every pot is centred at 0.5, with its last position equal to both targets and no button held; no parameter is shown (-1, value 0) and the display countdown is exactly 0, so the display is inactive; the targets-in-range invariant holds |
| SoftTakeover.ScalingToValue | src/nt_soft_takeover.h:42-47 | position 0 maps to min and 1 to max; a position in [0,1] maps into [min, max] |
| SoftTakeover.ValueToScaling | src/nt_soft_takeover.h:49-55 | scaling the computed position gives back the value (requires max ≠ min) |
| SoftTakeover.ScalingRoundTrip | src/nt_soft_takeover.h:46-54 | unscaling a scaled position gives back the position (requires max ≠ min) |
| SoftTakeover.Track | src/nt_soft_takeover.h:96-112 | a knob position in [0,1] leaves the target in [0,1] |
| SoftTakeover.TrackResyncs | src/nt_soft_takeover.h:107-112 | when the knob is within 0.02 of the tracked target, or at or beyond 0.01 or 0.99, the target becomes exactly the knob position |
| SoftTakeover.TrackHasNoJump | src/nt_soft_takeover.h:97-112 | out of sync, the target moves in the knob's direction and by no more than the knob moved; away from the ends of [0,1] it keeps its offset from the knob exactly, and a move past 1 (below 0) leaves it at exactly 1 (0) |
| SoftTakeover.DesyncedKnobScenario | src/nt_soft_takeover.h:96-112 | a knob 0.30 below its target keeps that offset (0.80 becomes 0.79) and is pushed against 1.0 without snapping; it snaps only once it is within 0.02 of the top |
| SoftTakeover.ProcessPot | src/nt_soft_takeover.h:80-130 | only the pot's own record changes, and its button flag is recorded. An unmoved pot reports (-1, 0, false). A moved pot does four things: the button picks the target, parameter and scaling, and the other target is kept; the target is updated by Track; the last position becomes the knob; the parameter and its scaled value are reported and shown with the display countdown reset. Targets stay in [0,1] |
| SoftTakeover.ProcessEncoder | src/nt_soft_takeover.h:132-159 | a zero delta gives no value and changes nothing. Otherwise the value is current + delta·step clamped: that sum when it is in range, max when it is above max, min when it is below min ≤ max, and max whenever max < min. The value is shown with the countdown reset |
| SoftTakeover.EncoderMovesTowardTurn | src/nt_soft_takeover.h:144-152 | with a positive step, the value stays in [min, max], turning up never lowers an in-range value and turning down never raises it |
| SoftTakeover.EncoderLandsNearest | src/nt_soft_takeover.h:148-150 | with min ≤ max, the encoder's value is in [min, max] and no value in that range is nearer to current + delta·step |
| SoftTakeover.IsDisplayActive | src/nt_soft_takeover.h:167-169 | the display is active exactly when the countdown is positive |
| SoftTakeover.DecrementDisplayTimeout | src/nt_soft_takeover.h:161-165 | a running countdown loses `frames`; a countdown at or below zero is left alone |
| SoftTakeover.DisplayExpires | src/nt_soft_takeover.h:161-169 | after k polls the display is active exactly when the starting countdown exceeds k·frames |
| SoftTakeover.DefaultDisplayLasts375Polls | src/nt_soft_takeover.h:161-169 | with the default 48000-frame countdown and 128-frame polls, the display is active after 374 polls and inactive after 375 |
| SoftTakeover.UpdatesKeepTargetsInRange | src/nt_soft_takeover.h:103-112 | pot updates with knob positions in [0,1], encoder updates and polls all keep every target in [0,1] |
| Voice.GateLevel | src/nt_303.cpp:322-324 | the Schmitt trigger: an input above 1.5 makes the gate high and one below 1.0 makes it low, whatever it was; in the band [1.0, 1.5] the gate keeps its previous level |
| Voice.Velocity | src/nt_303.cpp:327-328 | the velocity is 127 exactly when the accent CV is routed and above 2.5, and 80 otherwise |
| Voice.AccentGain | src/nt_303.cpp:338-343 | the gain lies in [0, 0.5]: it is 0 at or below 2.5, rises linearly as (cv − 2.5)/5 between 2.5 and 5, and is 0.5 at or above 5 |
| Voice.Forward | src/nt_303.cpp:333-343 | the calls a high gate forwards: the routed pitch CV to the oscillator first, then the routed accent's gain last, one call per routed input and nothing else; never a note-on or all-notes-off, and every accent gain lies in [0, 0.5] |
| Voice.GateStep | src/nt_303.cpp:321-351 | with no gate input, nothing happens. Otherwise exactly one note-on(60, velocity) is sent on a rising edge and none otherwise, and exactly one all-notes-off on a falling edge and none otherwise. Every accent gain lies in [0, 0.5]. The new gate follows the Schmitt trigger, and the active-note flag keeps mirroring the gate. A high gate sends the note-on (on a rising edge only) followed by exactly the forwarded CV calls; a low gate sends only the all-notes-off of a falling edge |
| Voice.CallsMatchEdges | src/nt_303.cpp:321-351 | over any block of samples, the number of note-ons equals the number of rising edges and the number of all-notes-offs equals the number of falling edges |
| Voice.HighGateHolds | src/nt_303.cpp:322-324 | a high gate whose input stays at or above 1.0 stays high and sends no note-on and no all-notes-off |
| Voice.CrossingOnceTriggersOnce | src/nt_303.cpp:322-331 | from the initial state, an input that crosses 1.5 and then stays at or above 1.0 sends exactly one note-on and no all-notes-off, and the gate ends high |
| Voice.LowGateIgnoresChatter | src/nt_303.cpp:322-324 | a low gate whose input never exceeds 1.5 stays low and sends nothing |
| Voice.HighGateDropsBelowFall | src/nt_303.cpp:322-347 | a high gate drops on the first sample below 1.0 and sends exactly one all-notes-off |
| Voice.AccentedTriggerScenario | src/nt_303.cpp:326-329 | a gate jump to 2.0 with the accent CV at 3.0 sends exactly one note-on, at velocity 127 |
| Midi.MidiMessage | src/nt_303.cpp:363-393 | at most one call is made. A filtered channel or an unhandled status makes none. A note-on carries data byte 1 as the note, with velocity 0 for status 0x80. All-notes-off is sent exactly for an accepted control change 120 or 123 |
| Midi.BendValue | src/nt_303.cpp:387 | with 7-bit data bytes the OR of the shifted MSB and the LSB is their sum, so the bend is b2·128 + b1 − 8192; for any bytes it lies in [−8192, 32768) |
| Midi.PitchBendInRange | src/nt_303.cpp:386-390 | with 7-bit data bytes the bend lies in [-8192, 8191] and the semitone value in [-2, 2) |
| Midi.OmniIgnoresChannel | src/nt_303.cpp:366-371 | with channel parameter 0, the channel nibble does not change the calls |
| Midi.DecodesEncoded | src/nt_303.cpp:363-393 | a well-formed note-on, note-off, control change or pitch bend reaches the engine as intended when its channel is accepted, with the 14-bit bend reassembled exactly from its two halves; on any other channel it reaches nothing |

## Findings

| source | as written | input that shows it | evidently intended | confidence | as-written member | corrected member |
|---|---|---|---|---|---|---|
| src/nt_303.cpp:44-45 | `size + sizeof(BlockHeader)` and the rounding in `alignUp` wrap on a 32-bit size_t | `heapAlloc(4294967288)` on a fresh 262144-byte pool returns a 32-byte block | a block holding the whole request, or null | medium, not executed | HeapWord.HugeRequestGetsSmallBlock | Heap.BlockSize |
| src/nt_303.cpp:58-65 | `heapUsed + size > heapSize` wraps on a 32-bit size_t | after `heapAlloc(24)`, `heapAlloc(4294967272)` passes the test and moves `heapUsed` back from 32 to 16 | null, with the cursor unchanged | medium, not executed | HeapWord.BumpCursorWraps | Heap.Alloc |

Both inputs can only arrive through `operator new`, which the plugin's code calls with small
sizes. The rest of the model uses the unbounded allocator of module `Heap`.
`HeapWord.AsWrittenAgrees` proves that this allocator and the compiled one agree whenever no
sum wraps.

## Left out

- `operator new`/`delete` (src/nt_303.cpp:81-107) are thin wrappers. The endless loop on exhaustion is modelled as the `Null` result of `Heap.Alloc`.
- Double free and freeing a pointer the allocator never returned are not modelled. `heapFree` trusts the header in front of the pointer and links the block in through it (src/nt_303.cpp:76-77), so a second free of a listed block would make the list cyclic. `Heap.Free` therefore requires a pointer inside the pool to have a header and its block not to be on the free list already, and `Heap.Valid` lists each block at most once.
- The pool's base address is not modelled. Alignment is stated relative to the pool start, which the host provides aligned.
- Heap.Alloc: block sizes are unbounded integers. This is the evidently intended behaviour; the firmware's 32-bit arithmetic is modelled separately in `HeapWord` (see Findings).
- The exponential branch of `scalingToValue`/`valueToScaling`, `cvToFreq` and `midiNoteToFreq` are left out because they use `powf`/`logf`. `PotScaling` is linear only. The oscillator call records the pitch CV instead of the frequency.
- `setupSoftTakeover` (src/nt_soft_takeover.h:57-72) is left out. It reads the host's parameter array and its result depends on the exponential scaling branch.
- The host's control bit flags (`kNT_potL`, `kNT_potButtonL`, …) are defined in the host API header, which is not part of this model. `UiData` carries them already decoded, one flag per pot.
- Float rounding is not modelled: every float is an exact real.
- SoftTakeover.ProcessPot: the `(int)` cast of the displayed value is modelled as truncation toward zero, without the undefined behaviour of an out-of-range float.
- SoftTakeover.ProcessEncoder: does not model 32-bit overflow of `currentValue + delta * step`. Parameter values are 16-bit and encoder deltas are small, so the sum cannot overflow.
- The one-pole smoothing of cutoff, resonance and decay and its every-8th-sample push (src/nt_303.cpp:304-319) are float filter numerics and are left out.
- The sample-rate update, audio generation, the ×5 gain, output replace/add, and the bus-offset arithmetic (src/nt_303.cpp:285-301, 353-359) are host buffer plumbing. Their only effect on the gate logic is whether each CV input is routed, which `CvSample` carries as an `Option`.
- `draw`, `customUi`, `setupUi`, the parameter and page tables, `calculateRequirements`, `construct` (apart from the initial gate state `INITIAL_VOICE`), `parameterChanged`, the factory and `pluginEntry` are host- and UI-facing code and are left out.
- The libm replacements in src/stl_stubs.cpp are floating-point numerics and are left out.

=== FILE: base.dfy ===
/** Small shared vocabulary: an optional value, the two clamping idioms the
    firmware writes out by hand, and C's truncating float-to-int cast. */
module Base {

  /** A value that may be absent: a disconnected CV input, an encoder that
      produced no new value, a free list with no fitting block. */
  datatype Option<+T> = None | Some(value: T)

  /** The firmware's `if (x < lo) x = lo; if (x > hi) x = hi;` on floats,
      in that order (so an inverted range yields `hi`). */
  function ClampReal(x: real, lo: real, hi: real): (r: real)
    ensures lo <= hi ==> lo <= r <= hi
    ensures lo <= x <= hi ==> r == x
    ensures lo <= hi && x < lo ==> r == lo
    ensures x > hi ==> r == hi
  {
    var a := if x < lo then lo else x;
    if a > hi then hi else a
  }

  /** The same two-step clamp on integers. */
  function ClampInt(x: int, lo: int, hi: int): (r: int)
    ensures lo <= hi ==> lo <= r <= hi
    ensures lo <= x <= hi ==> r == x
    ensures lo <= hi && x < lo ==> r == lo
    ensures x > hi ==> r == hi
  {
    var a := if x < lo then lo else x;
    if a > hi then hi else a
  }

  /** `(int)x` for a float `x`: truncation toward zero. */
  function TruncToInt(x: real): (n: int)
    ensures 0.0 <= x ==> n as real <= x < n as real + 1.0
    ensures x <= 0.0 ==> n as real - 1.0 < x <= n as real
    ensures (0.0 <= x ==> 0 <= n) && (x <= 0.0 ==> n <= 0)
  {
    if x >= 0.0 then x.Floor else -((-x).Floor)
  }
}

=== FILE: compat.dfy ===
/** cvToMidiNote (src/compat.h:16-21): a pitch CV at one unit per octave,
    with 0 at middle C (note 60), clamped to the MIDI range and rounded to the
    nearest note, halves up. Float arithmetic is modelled as exact. */
module Compat {
  import opened Base

  const MIDDLE_C: int := 60
  const MAX_NOTE: int := 127

  /** The unclamped, unrounded note a CV asks for: 12 semitones per unit. */
  function NoteValue(cv: real): real {
    MIDDLE_C as real + cv * 12.0
  }

  /** `k` is the nearest integer to `x`, a half rounding up. */
  predicate RoundsTo(x: real, k: int) {
    k as real - 0.5 <= x < k as real + 0.5
  }

  function CvToMidiNote(cv: real): (n: int)
    ensures 0 <= n <= MAX_NOTE
    ensures RoundsTo(ClampReal(NoteValue(cv), 0.0, MAX_NOTE as real), n)
  {
    var note := ClampReal(NoteValue(cv), 0.0, MAX_NOTE as real);
    TruncToInt(note + 0.5)
  }

  /** At most one integer is nearest to a value. */
  lemma RoundingIsUnique(x: real, k: int, m: int)
    requires RoundsTo(x, k) && RoundsTo(x, m)
    ensures k == m
  {
  }

  /** A CV of 0 is middle C. */
  lemma ZeroCvIsMiddleC()
    ensures CvToMidiNote(0.0) == MIDDLE_C
  {
    RoundingIsUnique(60.0, CvToMidiNote(0.0), 60);
  }

  /** A higher CV never gives a lower note. */
  lemma CvToMidiNoteMonotone(cv1: real, cv2: real)
    requires cv1 <= cv2
    ensures CvToMidiNote(cv1) <= CvToMidiNote(cv2)
  {
    var x1 := ClampReal(NoteValue(cv1), 0.0, 127.0);
    var x2 := ClampReal(NoteValue(cv2), 0.0, 127.0);
    assert x1 <= x2;
  }

  /** Within the unclamped range one unit of CV is exactly one octave. */
  lemma OneUnitIsOneOctave(cv: real)
    requires -5.0 <= cv && cv + 1.0 <= 67.0 / 12.0
    ensures CvToMidiNote(cv + 1.0) == CvToMidiNote(cv) + 12
  {
    var n := CvToMidiNote(cv);
    assert RoundsTo(NoteValue(cv), n);
    assert NoteValue(cv + 1.0) == NoteValue(cv) + 12.0;
    RoundingIsUnique(NoteValue(cv + 1.0), CvToMidiNote(cv + 1.0), n + 12);
  }

  /** Within the unclamped range the note is `60 + 12 cv` rounded half up. */
  lemma UnclampedRoundsHalfUp(cv: real)
    requires -5.0 <= cv <= 67.0 / 12.0
    ensures CvToMidiNote(cv) == (NoteValue(cv) + 0.5).Floor
  {
    var k := (NoteValue(cv) + 0.5).Floor;
    RoundingIsUnique(NoteValue(cv), CvToMidiNote(cv), k);
  }

  /** Below the bottom of the range the note saturates at 0, above the top at 127. */
  lemma CvToMidiNoteSaturates(cv: real)
    ensures cv <= -5.0 ==> CvToMidiNote(cv) == 0
    ensures cv >= 67.0 / 12.0 ==> CvToMidiNote(cv) == MAX_NOTE
  {
    if cv <= -5.0 {
      RoundingIsUnique(0.0, CvToMidiNote(cv), 0);
    }
    if cv >= 67.0 / 12.0 {
      RoundingIsUnique(127.0, CvToMidiNote(cv), 127);
    }
  }
}

=== FILE: engine.dfy ===
/** The calls the control plane makes into the synthesis engine
    (rosic::Open303), recorded rather than executed. */
module Engine {

  datatype EngineCall =
    | NoteOn(note: int, velocity: int)
    | AllNotesOff
      // setOscillatorFrequency(cvToFreq(cv)): the exponential conversion is
      // the engine side's business here, so the call records the pitch CV.
    | SetOscillatorFrequencyFromCv(pitchCv: real)
    | SetAccentGain(gain: real)
    | SetPitchBend(semitones: real)

  function CountNoteOns(calls: seq<EngineCall>): nat {
    if |calls| == 0 then 0
    else (if calls[0].NoteOn? then 1 else 0) + CountNoteOns(calls[1..])
  }

  function CountAllNotesOff(calls: seq<EngineCall>): nat {
    if |calls| == 0 then 0
    else (if calls[0].AllNotesOff? then 1 else 0) + CountAllNotesOff(calls[1..])
  }

  /** Counting distributes over concatenation of call lists. */
  lemma {:induction false} CountsAppend(a: seq<EngineCall>, b: seq<EngineCall>)
    ensures CountNoteOns(a + b) == CountNoteOns(a) + CountNoteOns(b)
    ensures CountAllNotesOff(a + b) == CountAllNotesOff(a) + CountAllNotesOff(b)
    decreases |a|
  {
    if |a| > 0 {
      assert (a + b)[0] == a[0];
      assert (a + b)[1..] == a[1..] + b;
      CountsAppend(a[1..], b);
    } else {
      assert a + b == b;
    }
  }
}

=== FILE: heap.dfy ===
/** The plugin's private heap (src/nt_303.cpp:16-78): a bump allocator over a
    pool registered once at construction, with a first-fit, last-in-first-out,
    non-coalescing free list.

    Addresses are offsets from the start of the pool. Every block starts with
    a header of HEADER bytes holding the block's size; the caller receives the
    address just past the header. The header memory is modelled by the map
    `headers` (block start -> size written there), which is only ever written
    by a bump allocation, exactly as in the source. Sizes are unbounded here;
    the 32-bit arithmetic of the firmware lives in module HeapWord. */
module Heap {
  import opened Base

  /** Pool size the plugin asks the host for and registers. */
  const DRAM_HEAP_SIZE: nat := 262144
  /** No block is smaller than this, header included. */
  const MIN_BLOCK: nat := 32
  /** Block sizes are rounded up to a multiple of this. */
  const ALIGN: nat := 8
  /** sizeof(BlockHeader) on the 32-bit target: a size_t and a pointer. */
  const HEADER: nat := 8

  /** A free-list entry: where the block's header starts and the size it records. */
  datatype Block = Block(start: int, size: nat)

  /** A pointer handed to or from the allocator, as an offset from the pool's start. */
  datatype Ptr = Null | At(offset: int)

  datatype HeapState = HeapState(
    ready: bool,              // a pool has been registered (heapPool != nullptr)
    capacity: nat,            // heapSize
    used: nat,                // heapUsed, the bump cursor
    freeList: seq<Block>,     // freeList, head first
    headers: map<int, nat>    // the size field of every header ever written
  )

  datatype AllocResult = AllocResult(heap: HeapState, ptr: Ptr)

  /** Every recorded block is aligned, at least MIN_BLOCK long and lies below the cursor. */
  predicate BlocksBelow(headers: map<int, nat>, used: nat) {
    forall s :: s in headers ==>
      && 0 <= s
      && s % ALIGN == 0
      && headers[s] % ALIGN == 0
      && MIN_BLOCK <= headers[s]
      && s + headers[s] <= used
  }

  /** No two recorded blocks overlap. */
  predicate Disjoint(headers: map<int, nat>) {
    forall s, t {:trigger headers[s], headers[t]} :: s in headers && t in headers && s < t ==> s + headers[s] <= t
  }

  /** Every free-list entry names a recorded block and agrees with its header. */
  predicate FreeListAgrees(freeList: seq<Block>, headers: map<int, nat>) {
    forall i :: 0 <= i < |freeList| ==>
      freeList[i].start in headers && headers[freeList[i].start] == freeList[i].size
  }

  /** No free-list entry starts at `start`: the block there is not free. */
  predicate NotFree(freeList: seq<Block>, start: int) {
    forall i :: 0 <= i < |freeList| ==> freeList[i].start != start
  }

  /** Each block is on the free list at most once. The source links a block
      in through its own header, so a block listed twice would be a cycle. */
  predicate DistinctStarts(freeList: seq<Block>) {
    forall i, j :: 0 <= i < j < |freeList| ==> freeList[i].start != freeList[j].start
  }

  /** Well-formedness the allocator maintains: the cursor is aligned and stays
      inside the pool, the blocks below it are aligned, large enough and
      pairwise disjoint, and the free list agrees with the headers and lists
      each block at most once. */
  predicate Valid(h: HeapState) {
    && h.used <= h.capacity
    && h.used % ALIGN == 0
    && BlocksBelow(h.headers, h.used)
    && Disjoint(h.headers)
    && FreeListAgrees(h.freeList, h.headers)
    && DistinctStarts(h.freeList)
  }

  /** Rounds up to the alignment: the least multiple of ALIGN that is at least `n`. */
  function AlignUp(n: nat): (r: nat)
    ensures r % ALIGN == 0
    ensures n <= r < n + ALIGN
  {
    (n + ALIGN - 1) / ALIGN * ALIGN
  }

  /** The block size reserved for a request of `request` bytes: room for the
      header, aligned, and never below MIN_BLOCK. It is the least such size. */
  function BlockSize(request: nat): (r: nat)
    ensures r % ALIGN == 0
    ensures request + HEADER <= r
    ensures MIN_BLOCK <= r
    ensures r == MIN_BLOCK || r < request + HEADER + ALIGN
  {
    var size := AlignUp(request + HEADER);
    if size < MIN_BLOCK then MIN_BLOCK else size
  }

  /** Registers a pool of `size` bytes; `poolPresent` is false when the host
      passed a null pool, which leaves the heap unusable. */
  function InitHeap(poolPresent: bool, size: nat): (h: HeapState)
    ensures Valid(h)
    ensures h.ready == poolPresent && h.capacity == size
    ensures h.used == 0 && |h.freeList| == 0
  {
    HeapState(poolPresent, size, 0, [], map[])
  }

  /** Position of the first free block, in list order, that can hold `need` bytes. */
  function FirstFit(freeList: seq<Block>, need: nat): (r: Option<nat>)
    ensures r.Some? ==> r.value < |freeList| && need <= freeList[r.value].size
    ensures r.Some? ==> forall j :: 0 <= j < r.value ==> freeList[j].size < need
    ensures r.None? ==> forall j :: 0 <= j < |freeList| ==> freeList[j].size < need
  {
    if |freeList| == 0 then None
    else if need <= freeList[0].size then Some(0)
    else match FirstFit(freeList[1..], need)
      case None => None
      case Some(i) => Some(i + 1)
  }

  /** No free block is large enough for `need` bytes. */
  predicate NoFit(h: HeapState, need: nat) {
    forall j :: 0 <= j < |h.freeList| ==> h.freeList[j].size < need
  }

  /** heapAlloc: reuse the first free block that fits, unsplit; otherwise bump
      the cursor; otherwise fail with Null (the out-of-memory condition). */
  function Alloc(h: HeapState, request: nat): (r: AllocResult)
    ensures r.ptr.Null? <==>
              !h.ready || (NoFit(h, BlockSize(request)) && h.used + BlockSize(request) > h.capacity)
    ensures r.ptr.Null? ==> r.heap == h
    ensures r.heap.ready == h.ready && r.heap.capacity == h.capacity
    ensures h.used <= r.heap.used
    ensures r.heap.used == h.used || r.heap.used == h.used + BlockSize(request)
  {
    if !h.ready then AllocResult(h, Null)
    else
      var need := BlockSize(request);
      match FirstFit(h.freeList, need)
      case Some(i) =>
        AllocResult(h.(freeList := h.freeList[..i] + h.freeList[i + 1..]),
                    At(h.freeList[i].start + HEADER))
      case None =>
        if h.used + need > h.capacity then AllocResult(h, Null)
        else AllocResult(h.(used := h.used + need, headers := h.headers[h.used := need]),
                         At(h.used + HEADER))
  }

  /** The pointer lies inside the registered pool, the only case heapFree acts on. */
  predicate InPool(h: HeapState, p: Ptr) {
    p.At? && h.ready && 0 <= p.offset < h.capacity
  }

  /** heapFree trusts the header in front of the pointer: a pointer inside the
      pool must be one the allocator handed out and has not been freed since. */
  predicate Freeable(h: HeapState, p: Ptr) {
    InPool(h, p) ==> p.offset - HEADER in h.headers && NotFree(h.freeList, p.offset - HEADER)
  }

  /** heapFree: a silent no-op for Null, an unregistered pool or a pointer
      outside the pool; otherwise the block goes to the head of the free list. */
  function Free(h: HeapState, p: Ptr): (h': HeapState)
    requires Freeable(h, p)
    ensures !InPool(h, p) ==> h' == h
    ensures InPool(h, p) ==>
              h' == h.(freeList := [Block(p.offset - HEADER, h.headers[p.offset - HEADER])] + h.freeList)
    ensures h'.used == h.used && h'.headers == h.headers
  {
    if !InPool(h, p) then h
    else
      var start := p.offset - HEADER;
      h.(freeList := [Block(start, h.headers[start])] + h.freeList)
  }

  /** Giving a block back keeps the heap well formed. */
  lemma FreePreservesValid(h: HeapState, p: Ptr)
    requires Valid(h) && Freeable(h, p)
    ensures Valid(Free(h, p))
  {
    var h' := Free(h, p);
    if InPool(h, p) {
      forall i | 0 <= i < |h'.freeList|
        ensures h'.freeList[i].start in h'.headers && h'.headers[h'.freeList[i].start] == h'.freeList[i].size
      {
        if i > 0 {
          assert h'.freeList[i] == h.freeList[i - 1];
        }
      }
      forall i, j | 0 <= i < j < |h'.freeList|
        ensures h'.freeList[i].start != h'.freeList[j].start
      {
        assert h'.freeList[j] == h.freeList[j - 1];
        if i > 0 {
          assert h'.freeList[i] == h.freeList[i - 1];
        }
      }
    }
  }

  /** No double free: once a block is back on the free list, its pointer may
      not be given back again until the allocator hands it out anew. */
  lemma FreedIsNotFreeable(h: HeapState, p: Ptr)
    requires InPool(h, p) && Freeable(h, p)
    ensures InPool(Free(h, p), p) && !Freeable(Free(h, p), p)
  {
    assert Free(h, p).freeList[0].start == p.offset - HEADER;
  }

  /** A bump allocation: when no free block fits but the pool has room, the
      block starts at the old cursor, the cursor grows by exactly the block
      size, a header recording that size is written, and the free list is
      untouched. */
  lemma AllocBumps(h: HeapState, request: nat)
    requires h.ready
    requires NoFit(h, BlockSize(request))
    requires h.used + BlockSize(request) <= h.capacity
    ensures Alloc(h, request) ==
              AllocResult(h.(used := h.used + BlockSize(request),
                             headers := h.headers[h.used := BlockSize(request)]),
                          At(h.used + HEADER))
  {
  }

  /** Free-list reuse is first-fit: the first block in list order that is
      large enough is unlinked and handed out whole, the remaining free blocks
      keep their order, and neither the cursor nor any header changes. */
  lemma AllocReusesFirstFit(h: HeapState, request: nat, i: nat)
    requires h.ready
    requires i < |h.freeList| && BlockSize(request) <= h.freeList[i].size
    requires forall j :: 0 <= j < i ==> h.freeList[j].size < BlockSize(request)
    ensures Alloc(h, request) ==
              AllocResult(h.(freeList := h.freeList[..i] + h.freeList[i + 1..]),
                          At(h.freeList[i].start + HEADER))
  {
    var k := FirstFit(h.freeList, BlockSize(request));
    assert k == Some(i);
  }

  /** Unlinking the i-th free block keeps the heap well formed; the block
      itself is a recorded, aligned block below the cursor. */
  lemma UnlinkPreservesValid(h: HeapState, i: nat)
    requires Valid(h) && i < |h.freeList|
    ensures Valid(h.(freeList := h.freeList[..i] + h.freeList[i + 1..]))
    ensures var b := h.freeList[i];
            && b.start in h.headers && h.headers[b.start] == b.size
            && 0 <= b.start && b.start % ALIGN == 0 && b.start + b.size <= h.used
    ensures NotFree(h.freeList[..i] + h.freeList[i + 1..], h.freeList[i].start)
  {
    var fl := h.freeList;
    var fl' := fl[..i] + fl[i + 1..];
    assert forall j :: 0 <= j < |fl'| ==> fl'[j] == fl[if j < i then j else j + 1];
  }

  /** Carving a fresh aligned block of `need` bytes at the cursor keeps the heap well formed. */
  lemma BumpPreservesValid(h: HeapState, need: nat)
    requires Valid(h)
    requires need % ALIGN == 0 && MIN_BLOCK <= need && h.used + need <= h.capacity
    ensures Valid(h.(used := h.used + need, headers := h.headers[h.used := need]))
    ensures NotFree(h.freeList, h.used)
  {
    var hs := h.headers[h.used := need];
    var used := h.used + need;
    assert h.used !in h.headers;
    forall s | s in hs
      ensures 0 <= s && s % ALIGN == 0 && hs[s] % ALIGN == 0 && MIN_BLOCK <= hs[s] && s + hs[s] <= used
    {
      if s != h.used {
        assert s in h.headers;
      }
    }
    forall s, t | s in hs && t in hs && s < t
      ensures s + hs[s] <= t
    {
      assert t != h.used ==> t in h.headers;
    }
    assert FreeListAgrees(h.freeList, hs);
  }

  /** The pointer of an allocation result is aligned, lies in the pool, and
      addresses a block whose header records room for the whole request. */
  predicate HoldsRequest(r: AllocResult, request: nat) {
    r.ptr.At? ==>
      && r.ptr.offset - HEADER in r.heap.headers
      && request + HEADER <= r.heap.headers[r.ptr.offset - HEADER]
      && r.ptr.offset % ALIGN == 0
      && r.ptr.offset + request <= r.heap.capacity
  }

  /** Handing out the i-th free block whole, for a request it can hold. */
  lemma ReuseHoldsRequest(h: HeapState, request: nat, i: nat)
    requires Valid(h) && i < |h.freeList| && BlockSize(request) <= h.freeList[i].size
    ensures var h' := h.(freeList := h.freeList[..i] + h.freeList[i + 1..]);
            Valid(h') && HoldsRequest(AllocResult(h', At(h.freeList[i].start + HEADER)), request)
  {
    UnlinkPreservesValid(h, i);
  }

  /** Carving a fresh block at the cursor, when the pool has room for it. */
  lemma BumpHoldsRequest(h: HeapState, request: nat)
    requires Valid(h) && h.used + BlockSize(request) <= h.capacity
    ensures var h' := h.(used := h.used + BlockSize(request), headers := h.headers[h.used := BlockSize(request)]);
            Valid(h') && HoldsRequest(AllocResult(h', At(h.used + HEADER)), request)
  {
    BumpPreservesValid(h, BlockSize(request));
  }

  /** Allocation keeps the heap well formed, and the pointer it hands out
      holds the whole request. */
  lemma AllocPreservesValid(h: HeapState, request: nat)
    requires Valid(h)
    ensures Valid(Alloc(h, request).heap)
    ensures HoldsRequest(Alloc(h, request), request)
  {
    var need := BlockSize(request);
    var k := FirstFit(h.freeList, need);
    if h.ready && k.Some? {
      AllocReusesFirstFit(h, request, k.value);
      ReuseHoldsRequest(h, request, k.value);
    } else if h.ready && h.used + need <= h.capacity {
      AllocBumps(h, request);
      BumpHoldsRequest(h, request);
    }
  }

  /** LIFO reuse: freeing a block and then asking for no more than it holds
      gives back the same pointer and exactly the heap before the free. */
  lemma FreeThenAllocReuses(h: HeapState, p: Ptr, request: nat)
    requires InPool(h, p) && Freeable(h, p)
    requires BlockSize(request) <= h.headers[p.offset - HEADER]
    ensures Alloc(Free(h, p), request) == AllocResult(h, p)
  {
    var h' := Free(h, p);
    assert FirstFit(h'.freeList, BlockSize(request)) == Some(0);
    assert h'.freeList[1..] == h.freeList;
  }

  /** The pointer of an allocation result may be given back, and its block
      holds `request` bytes again. */
  predicate Recyclable(r: AllocResult, request: nat) {
    r.ptr.At? ==>
      && InPool(r.heap, r.ptr)
      && Freeable(r.heap, r.ptr)
      && BlockSize(request) <= r.heap.headers[r.ptr.offset - HEADER]
  }

  /** A pointer the allocator hands out from a valid heap may be given back. */
  lemma AllocatedIsFreeable(h: HeapState, request: nat)
    requires Valid(h)
    ensures Recyclable(Alloc(h, request), request)
  {
    var need := BlockSize(request);
    var k := FirstFit(h.freeList, need);
    if h.ready && k.Some? {
      AllocReusesFirstFit(h, request, k.value);
      UnlinkPreservesValid(h, k.value);
    } else if h.ready && h.used + need <= h.capacity {
      AllocBumps(h, request);
    }
  }

  /** One round of the setup-time workload the allocator serves: free the
      previous result and allocate the same size again. The Freeable test only
      discharges Free's precondition: AllocatedIsFreeable shows that after an
      allocation from a valid heap it always holds. */
  function Cycle(prev: AllocResult, request: nat): AllocResult {
    if prev.ptr.Null? || !Freeable(prev.heap, prev.ptr) then prev
    else Alloc(Free(prev.heap, prev.ptr), request)
  }

  /** A cycle from a recyclable result gives that result back. */
  lemma CycleReturns(r: AllocResult, request: nat)
    requires Recyclable(r, request)
    ensures Cycle(r, request) == r
  {
    if r.ptr.At? {
      FreeThenAllocReuses(r.heap, r.ptr, request);
    }
  }

  /** `k` cycles, starting from the result of a first allocation. */
  function Churn(first: AllocResult, request: nat, k: nat): AllocResult
    decreases k
  {
    if k == 0 then first else Cycle(Churn(first, request, k - 1), request)
  }

  /** From a recyclable result, any number of identical allocate/free cycles
      leave the heap and the pointer where they were. */
  lemma {:induction false} ChurnStaysPut(first: AllocResult, request: nat, k: nat)
    requires Recyclable(first, request)
    ensures Churn(first, request, k) == first
    decreases k
  {
    if k > 0 {
      ChurnStaysPut(first, request, k - 1);
      CycleReturns(first, request);
    }
  }

  /** Any number of identical allocate/free cycles never exhausts the pool:
      after the first allocation the heap and the pointer are a fixed point. */
  lemma ChurnIsStable(h: HeapState, request: nat, k: nat)
    requires Valid(h)
    ensures Churn(Alloc(h, request), request, k) == Alloc(h, request)
  {
    AllocatedIsFreeable(h, request);
    ChurnStaysPut(Alloc(h, request), request, k);
  }
}

=== FILE: heap_word.dfy ===
/** heapAlloc exactly as compiled for the 32-bit target: every size is a
    size_t, so `size + sizeof(BlockHeader)`, the rounding in alignUp and
    `heapUsed + size` all wrap modulo 2^32 (src/nt_303.cpp:30-32, 44-45, 58-65).
    For every request that leaves room below 2^32 this is the allocator of
    module Heap; the two lemmas at the end exhibit requests for which it is
    not. */
module HeapWord {
  import opened Base
  import opened Heap

  /** 2^32: the range of a size_t on the target. */
  const WORD: nat := 0x1_0000_0000

  /** What a size_t keeps of a sum. */
  function Wrap(x: nat): (r: nat)
    ensures r < WORD
    ensures x < WORD ==> r == x
    ensures WORD <= x < 2 * WORD ==> r == x - WORD
  {
    x % WORD
  }

  /** alignUp on a size_t: `(n + ALIGN - 1) & ~(ALIGN - 1)`. The addition
      wraps; masking off the low three bits of the unsigned sum rounds it down
      to a multiple of ALIGN. */
  function AlignUpWord(n: nat): (r: nat)
    requires n < WORD
    ensures r < WORD && r % ALIGN == 0
    ensures n + ALIGN - 1 < WORD ==> n <= r
    ensures WORD <= n + ALIGN - 1 ==> r < ALIGN
  {
    Wrap(n + ALIGN - 1) / ALIGN * ALIGN
  }

  /** Without wrap-around the bit mask rounds up exactly as Heap.AlignUp does. */
  lemma AlignUpWordAgrees(n: nat)
    requires n + ALIGN - 1 < WORD
    ensures AlignUpWord(n) == AlignUp(n)
  {
  }

  /** Lines 44-45 on a size_t request. */
  function BlockSizeWord(request: nat): (r: nat)
    requires request < WORD
    ensures r < WORD && r % ALIGN == 0
    ensures MIN_BLOCK <= r
    ensures request + HEADER + ALIGN - 1 < WORD ==> request + HEADER <= r
    ensures WORD <= request + HEADER + ALIGN - 1 ==> r == MIN_BLOCK
  {
    var size := AlignUpWord(Wrap(request + HEADER));
    if size < MIN_BLOCK then MIN_BLOCK else size
  }

  /** heapAlloc with size_t arithmetic; the free-list search is the same. */
  function AllocAsWritten(h: HeapState, request: nat): (r: AllocResult)
    requires request < WORD && h.used < WORD
    ensures r.ptr.Null? ==> r.heap == h
    ensures r.heap.used < WORD
  {
    if !h.ready then AllocResult(h, Null)
    else
      var need := BlockSizeWord(request);
      match FirstFit(h.freeList, need)
      case Some(i) =>
        AllocResult(h.(freeList := h.freeList[..i] + h.freeList[i + 1..]),
                    At(h.freeList[i].start + HEADER))
      case None =>
        if Wrap(h.used + need) > h.capacity then AllocResult(h, Null)
        else AllocResult(h.(used := Wrap(h.used + need), headers := h.headers[h.used := need]),
                         At(h.used + HEADER))
  }

  /** Requests that leave room below 2^32 get the same block size either way. */
  lemma BlockSizeWordAgrees(request: nat)
    requires request + HEADER + ALIGN - 1 < WORD
    ensures BlockSizeWord(request) == BlockSize(request)
  {
    AlignUpWordAgrees(request + HEADER);
  }

  /** On a pool and request small enough that no size_t sum wraps, the
      compiled allocator is the unbounded one of module Heap. */
  lemma AsWrittenAgrees(h: HeapState, request: nat)
    requires h.used <= h.capacity
    requires h.capacity + request + MIN_BLOCK < WORD
    ensures AllocAsWritten(h, request) == Alloc(h, request)
  {
    BlockSizeWordAgrees(request);
  }

  /** A request of 2^32 - 8 bytes wraps to a header-only size and is served
      with a MIN_BLOCK block holding 24 usable bytes; the unbounded allocator
      reports out-of-memory. */
  lemma HugeRequestGetsSmallBlock()
    ensures var r := AllocAsWritten(InitHeap(true, DRAM_HEAP_SIZE), WORD - HEADER);
            && r.ptr == At(HEADER)
            && 0 in r.heap.headers
            && r.heap.headers[0] == MIN_BLOCK
            && r.heap.headers[0] < (WORD - HEADER) + HEADER
    ensures Alloc(InitHeap(true, DRAM_HEAP_SIZE), WORD - HEADER).ptr == Null
  {
    var h := InitHeap(true, DRAM_HEAP_SIZE);
    assert Wrap(WORD - HEADER + HEADER) == 0;
    assert AlignUpWord(0) == 0;
    assert BlockSizeWord(WORD - HEADER) == MIN_BLOCK;
  }

  /** After one 24-byte allocation the cursor is at 32; a request of
      2^32 - 24 bytes then passes the pool-bound test because
      `heapUsed + size` wraps to 16, the block is handed out, and the cursor
      moves backwards to 16. The unbounded allocator reports out-of-memory. */
  lemma BumpCursorWraps()
    ensures var h := Alloc(InitHeap(true, DRAM_HEAP_SIZE), 24).heap;
            var r := AllocAsWritten(h, WORD - 24);
            && h.used == 32
            && r.ptr == At(32 + HEADER)
            && r.heap.used == 16
            && r.heap.used < h.used
    ensures Alloc(Alloc(InitHeap(true, DRAM_HEAP_SIZE), 24).heap, WORD - 24).ptr == Null
  {
    var h0 := InitHeap(true, DRAM_HEAP_SIZE);
    assert BlockSize(24) == 32;
    AllocBumps(h0, 24);
    var h := Alloc(h0, 24).heap;
    assert h.freeList == [];
    AlignUpWordAgrees(WORD - 16);
    assert BlockSizeWord(WORD - 24) == WORD - 16;
    assert Wrap(32 + (WORD - 16)) == 16;
  }
}

=== FILE: midi.dfy ===
/** midiMessage (src/nt_303.cpp:363-393): a three-byte channel message is
    dropped unless it is on the configured channel (0 = omni), then dispatched
    on its status nibble to note-on, note-off (as a zero-velocity note-on),
    the all-notes-off controllers, or a 14-bit pitch bend of +-2 semitones. */
module Midi {
  import opened Engine

  type Byte = x: int | 0 <= x < 256

  const NOTE_OFF: int := 0x80
  const NOTE_ON: int := 0x90
  const CONTROL_CHANGE: int := 0xB0
  const PITCH_BEND: int := 0xE0
  /** The two controllers that silence the voice: All Sound Off and All Notes Off. */
  const ALL_SOUND_OFF_CC: int := 120
  const ALL_NOTES_OFF_CC: int := 123
  /** The centre of the 14-bit bend range. */
  const BEND_CENTRE: int := 8192
  /** Semitones at full deflection. */
  const BEND_RANGE: real := 2.0

  /** `b0 & 0x0f`: the message's channel, 0-based. */
  function Channel(b0: Byte): int {
    b0 % 16
  }

  /** `b0 & 0xf0`: the message's status nibble, left in place. */
  function Status(b0: Byte): int {
    b0 - b0 % 16
  }

  /** `((b2 << 7) | b1) - 8192` on ints. The two operands share only bit 7
      (the low bit of b2 shifted, and the top bit of b1); OR counts it once. */
  function BendValue(b1: Byte, b2: Byte): (bend: int)
    ensures b1 < 128 && b2 < 128 ==> bend == b2 * 128 + b1 - BEND_CENTRE
    ensures -BEND_CENTRE <= bend < 4 * BEND_CENTRE
  {
    var shifted := b2 * 128;
    var overlap := if b1 >= 128 && b2 % 2 == 1 then 128 else 0;
    shifted + b1 - overlap - BEND_CENTRE
  }

  /** The filter test of lines 366-371: a positive channel parameter p passes
      only channel p - 1. */
  predicate Accepts(midiChParam: int, b0: Byte) {
    midiChParam <= 0 || Channel(b0) == midiChParam - 1
  }

  function MidiMessage(midiChParam: int, b0: Byte, b1: Byte, b2: Byte): (calls: seq<EngineCall>)
    ensures |calls| <= 1
    ensures !Accepts(midiChParam, b0) ==> calls == []
    ensures Status(b0) !in {NOTE_OFF, NOTE_ON, CONTROL_CHANGE, PITCH_BEND} ==> calls == []
    ensures forall c :: c in calls && c.NoteOn? ==>
              c.note == b1 && (Status(b0) == NOTE_OFF ==> c.velocity == 0)
    ensures AllNotesOff in calls <==>
              Accepts(midiChParam, b0) && Status(b0) == CONTROL_CHANGE && b1 in {ALL_SOUND_OFF_CC, ALL_NOTES_OFF_CC}
  {
    if midiChParam > 0 && Channel(b0) != midiChParam - 1 then []
    else
      var status := Status(b0);
      if status == NOTE_ON then [NoteOn(b1, b2)]
      else if status == NOTE_OFF then [NoteOn(b1, 0)]
      else if status == CONTROL_CHANGE then (if b1 == ALL_SOUND_OFF_CC || b1 == ALL_NOTES_OFF_CC then [AllNotesOff] else [])
      else if status == PITCH_BEND then
        var bend := BendValue(b1, b2);
        [SetPitchBend(bend as real * BEND_RANGE / BEND_CENTRE as real)]
      else []
  }

  /** With 7-bit data bytes the bend lies in [-8192, 8191] and the bend sent
      to the engine in [-2, 2) semitones. */
  lemma PitchBendInRange(midiChParam: int, b0: Byte, b1: Byte, b2: Byte)
    requires Accepts(midiChParam, b0) && Status(b0) == PITCH_BEND
    requires b1 < 128 && b2 < 128
    ensures -BEND_CENTRE <= BendValue(b1, b2) < BEND_CENTRE
    ensures var calls := MidiMessage(midiChParam, b0, b1, b2);
            |calls| == 1 && calls[0].SetPitchBend? && -BEND_RANGE <= calls[0].semitones < BEND_RANGE
  {
  }

  /** In omni mode the channel nibble makes no difference. */
  lemma OmniIgnoresChannel(midiChParam: int, b0: Byte, b1: Byte, b2: Byte, channel: int)
    requires midiChParam <= 0 && 0 <= channel < 16
    ensures MidiMessage(midiChParam, Status(b0) + channel, b1, b2) == MidiMessage(midiChParam, b0, b1, b2)
  {
    assert Status(Status(b0) + channel) == Status(b0);
  }

  /** A well-formed channel voice message, as a sender would describe it. */
  datatype ChannelMessage =
    | NoteOnMsg(channel: nat, note: nat, velocity: nat)
    | NoteOffMsg(channel: nat, note: nat, velocity: nat)
    | ControlChangeMsg(channel: nat, controller: nat, value: nat)
    | PitchBendMsg(channel: nat, bend: nat)

  predicate WellFormedMessage(m: ChannelMessage) {
    m.channel < 16 &&
    match m
    case NoteOnMsg(_, note, velocity) => note < 128 && velocity < 128
    case NoteOffMsg(_, note, velocity) => note < 128 && velocity < 128
    case ControlChangeMsg(_, controller, value) => controller < 128 && value < 128
    case PitchBendMsg(_, bend) => bend < 16384
  }

  /** The three bytes a sender puts on the wire (the bend as LSB then MSB). */
  function Encode(m: ChannelMessage): (Byte, Byte, Byte)
    requires WellFormedMessage(m)
  {
    match m
    case NoteOnMsg(ch, note, velocity) => (0x90 + ch, note, velocity)
    case NoteOffMsg(ch, note, velocity) => (0x80 + ch, note, velocity)
    case ControlChangeMsg(ch, controller, value) => (0xB0 + ch, controller, value)
    case PitchBendMsg(ch, bend) => (0xE0 + ch, bend % 128, bend / 128)
  }

  /** What the engine is meant to receive for a message on an accepted channel. */
  function Intended(m: ChannelMessage): seq<EngineCall> {
    match m
    case NoteOnMsg(_, note, velocity) => [NoteOn(note, velocity)]
    case NoteOffMsg(_, note, _) => [NoteOn(note, 0)]
    case ControlChangeMsg(_, controller, _) =>
      if controller == ALL_SOUND_OFF_CC || controller == ALL_NOTES_OFF_CC then [AllNotesOff] else []
    case PitchBendMsg(_, bend) => [SetPitchBend((bend - BEND_CENTRE) as real / 4096.0)]
  }

  /** Decoding what a sender encoded: a message on an accepted channel reaches
      the engine as intended, in particular the 14-bit bend is reassembled
      exactly from its two 7-bit halves; any other channel reaches nothing. */
  lemma DecodesEncoded(midiChParam: int, m: ChannelMessage)
    requires WellFormedMessage(m)
    ensures var (b0, b1, b2) := Encode(m);
            MidiMessage(midiChParam, b0, b1, b2) ==
              if midiChParam <= 0 || m.channel == midiChParam - 1 then Intended(m) else []
  {
    var (b0, b1, b2) := Encode(m);
    assert Channel(b0) == m.channel;
    if m.PitchBendMsg? {
      assert BendValue(b1, b2) == m.bend - BEND_CENTRE;
    }
  }
}

=== FILE: soft_takeover.dfy ===
/** The soft-takeover engine (src/nt_soft_takeover.h): three pots whose
    logical targets follow the knob relatively until knob and target agree,
    two encoders stepping integer parameters, and the countdown of the
    transient single-parameter display. Float arithmetic is modelled as exact
    reals. */
module SoftTakeover {
  import opened Base

  const NUM_POTS: nat := 3
  const NUM_ENCODERS: nat := 2
  /** Default display countdown set by a pot or encoder edit, in frames. */
  const DISPLAY_TIMEOUT_FRAMES: int := 48000
  /** Default amount one UI poll takes off the countdown. */
  const POLL_FRAMES: int := 128
  /** Knob and target closer than this are treated as in sync. */
  const SYNC_WINDOW: real := 0.02
  /** At or beyond these knob positions the target snaps to the knob. */
  const RAIL_LOW: real := 0.01
  const RAIL_HIGH: real := 0.99

  /** One pot: where the knob was last seen and the two logical positions it
      drives, the normal one and the one used while its button is held. */
  datatype PotChannel = PotChannel(
    buttonWasPressed: bool,
    lastPotPos: real,
    normalTarget: real,
    altTarget: real
  )

  /** SoftTakeoverState: the pots plus the transient display (parameter,
      integer value, remaining frames). */
  datatype TakeoverState = TakeoverState(
    pots: seq<PotChannel>,
    activeParam: int,
    activeParamValue: int,
    displayTimeout: int
  )

  /** A linear mapping between a knob position in [0,1] and a parameter range. */
  datatype PotScaling = PotScaling(min: real, max: real)

  /** Which parameters a pot edits, without and with its button held. */
  datatype PotConfig = PotConfig(
    normalParam: int,
    altParam: int,
    normalScaling: PotScaling,
    altScaling: PotScaling
  )

  /** One UI poll, with the host's control bit flags decoded per pot. */
  datatype UiData = UiData(
    potMoved: seq<bool>,
    buttonHeld: seq<bool>,
    pots: seq<real>,
    encoders: seq<int>
  )

  datatype PotResult = PotResult(paramIdx: int, paramValue: real, changed: bool)

  datatype PotStep = PotStep(state: TakeoverState, result: PotResult)

  /** The new parameter value an encoder produced, if any. */
  datatype EncoderStep = EncoderStep(state: TakeoverState, newValue: Option<int>)

  predicate WellFormed(st: TakeoverState) {
    |st.pots| == NUM_POTS
  }

  predicate UiWellFormed(data: UiData) {
    && |data.potMoved| == NUM_POTS
    && |data.buttonHeld| == NUM_POTS
    && |data.pots| == NUM_POTS
    && |data.encoders| == NUM_ENCODERS
  }

  predicate InUnit(x: real) {
    0.0 <= x <= 1.0
  }

  /** The invariant of the engine: every target of every pot lies in [0,1]. */
  predicate TargetsInRange(st: TakeoverState) {
    && WellFormed(st)
    && forall i :: 0 <= i < |st.pots| ==>
         InUnit(st.pots[i].normalTarget) && InUnit(st.pots[i].altTarget)
  }

  /** isDisplayActive: the transient display shows while its countdown is positive. */
  predicate IsDisplayActive(st: TakeoverState) {
    st.displayTimeout > 0
  }

  function Abs(x: real): real {
    if x < 0.0 then -x else x
  }

  /** initSoftTakeover: every pot centred with knob and targets in agreement,
      no button held, no display. */
  function InitSoftTakeover(): (st: TakeoverState)
    ensures TargetsInRange(st)
    ensures !IsDisplayActive(st) && st.displayTimeout == 0
    ensures st.activeParam == -1 && st.activeParamValue == 0
    ensures forall i :: 0 <= i < |st.pots| ==>
              && !st.pots[i].buttonWasPressed
              && st.pots[i].lastPotPos == st.pots[i].normalTarget == st.pots[i].altTarget == 0.5
  {
    TakeoverState(seq(NUM_POTS, _ => PotChannel(false, 0.5, 0.5, 0.5)), -1, 0, 0)
  }

  /** scalingToValue, linear branch: the parameter value at a knob position. */
  function ScalingToValue(s: PotScaling, potPos: real): (v: real)
    ensures potPos == 0.0 ==> v == s.min
    ensures potPos == 1.0 ==> v == s.max
    ensures s.min <= s.max && InUnit(potPos) ==> s.min <= v <= s.max
  {
    var span := s.max - s.min;
    FractionOfSpan(potPos, span);
    s.min + potPos * span
  }

  /** A fraction in [0,1] of a non-negative span lies between 0 and the span. */
  lemma FractionOfSpan(p: real, span: real)
    ensures InUnit(p) && 0.0 <= span ==> 0.0 <= p * span <= span
  {
    if InUnit(p) && 0.0 <= span {
      assert (1.0 - p) * span >= 0.0;
    }
  }

  /** valueToScaling, linear branch: the knob position of a parameter value.
      A degenerate range divides by zero in the source. */
  function ValueToScaling(s: PotScaling, value: real): (p: real)
    requires s.max != s.min
    ensures ScalingToValue(s, p) == value
  {
    var p := (value - s.min) / (s.max - s.min);
    assert p * (s.max - s.min) == value - s.min;
    p
  }

  /** Scaling then unscaling a knob position gives the position back. */
  lemma ScalingRoundTrip(s: PotScaling, potPos: real)
    requires s.max != s.min
    ensures ValueToScaling(s, ScalingToValue(s, potPos)) == potPos
  {
    var v := ScalingToValue(s, potPos);
    var d := s.max - s.min;
    assert v - s.min == potPos * d;
  }

  /** The resync test: knob within SYNC_WINDOW of the tracked target, or at a rail. */
  predicate InSync(potPos: real, tracked: real) {
    Abs(potPos - tracked) < SYNC_WINDOW || potPos <= RAIL_LOW || potPos >= RAIL_HIGH
  }

  /** One soft-takeover update of a target (lines 96-112): move the target by
      the knob's movement, clamp it to [0,1], and snap it to the knob when the
      two are in sync. */
  function Track(target: real, lastPos: real, potPos: real): (t: real)
    ensures InUnit(potPos) ==> InUnit(t)
  {
    var tracked := ClampReal(target + (potPos - lastPos), 0.0, 1.0);
    if InSync(potPos, tracked) then potPos else tracked
  }

  /** Resync: once knob and tracked target are close, or the knob is at a
      rail, the target becomes exactly the knob position. */
  lemma TrackResyncs(target: real, lastPos: real, potPos: real)
    requires var tracked := ClampReal(target + (potPos - lastPos), 0.0, 1.0);
             Abs(potPos - tracked) < SYNC_WINDOW || potPos <= RAIL_LOW || potPos >= RAIL_HIGH
    ensures Track(target, lastPos, potPos) == potPos
  {
  }

  /** No jump: out of sync, the target moves in the knob's direction and by
      no more than the knob moved; away from the ends of [0,1] it keeps its
      offset from the knob exactly, and a move past an end leaves it on that
      end. */
  lemma TrackHasNoJump(target: real, lastPos: real, potPos: real)
    requires InUnit(target)
    requires !InSync(potPos, ClampReal(target + (potPos - lastPos), 0.0, 1.0))
    ensures Abs(Track(target, lastPos, potPos) - target) <= Abs(potPos - lastPos)
    ensures potPos >= lastPos ==> Track(target, lastPos, potPos) >= target
    ensures potPos <= lastPos ==> Track(target, lastPos, potPos) <= target
    ensures InUnit(target + (potPos - lastPos)) ==>
              Track(target, lastPos, potPos) - potPos == target - lastPos
    ensures target + (potPos - lastPos) > 1.0 ==> Track(target, lastPos, potPos) == 1.0
    ensures target + (potPos - lastPos) < 0.0 ==> Track(target, lastPos, potPos) == 0.0
  {
  }

  /** A knob that starts 0.30 below its recalled target keeps that offset
      while both move: 0.50 -> 0.49 takes the target from 0.80 to 0.79, and a
      further move to 0.78 pushes the target against the top of the range
      (1.0), still out of sync; they meet only once the knob is within 0.02
      of the top. */
  lemma DesyncedKnobScenario()
    ensures Track(0.80, 0.50, 0.49) == 0.79
    ensures Track(0.79, 0.49, 0.78) == 1.0
    ensures Track(1.0, 0.78, 0.97) == 1.0
    ensures Track(1.0, 0.97, 0.985) == 0.985
  {
  }

  /** processPot: the pot's button picks the target, parameter and scaling;
      a moved pot updates that target by Track, reports the scaled value and
      refreshes the display; every pot records its button state. */
  function ProcessPot(st: TakeoverState, potIndex: nat, data: UiData, config: PotConfig,
                      displayTimeoutFrames: int): (r: PotStep)
    requires WellFormed(st) && UiWellFormed(data) && potIndex < NUM_POTS
    ensures WellFormed(r.state)
    ensures forall j :: 0 <= j < NUM_POTS && j != potIndex ==> r.state.pots[j] == st.pots[j]
    ensures r.state.pots[potIndex].buttonWasPressed == data.buttonHeld[potIndex]
    ensures TargetsInRange(st) && InUnit(data.pots[potIndex]) ==> TargetsInRange(r.state)
    ensures !data.potMoved[potIndex] ==>
              && r.result == PotResult(-1, 0.0, false)
              && r.state == st.(pots := st.pots[potIndex := st.pots[potIndex].(buttonWasPressed := data.buttonHeld[potIndex])])
    ensures data.potMoved[potIndex] ==>
              var pot, pot', held := st.pots[potIndex], r.state.pots[potIndex], data.buttonHeld[potIndex];
              && r.result.changed
              && r.result.paramIdx == (if held then config.altParam else config.normalParam)
              && pot'.lastPotPos == data.pots[potIndex]
              && (held ==> pot'.normalTarget == pot.normalTarget
                           && pot'.altTarget == Track(pot.altTarget, pot.lastPotPos, data.pots[potIndex])
                           && r.result.paramValue == ScalingToValue(config.altScaling, pot'.altTarget))
              && (!held ==> pot'.altTarget == pot.altTarget
                            && pot'.normalTarget == Track(pot.normalTarget, pot.lastPotPos, data.pots[potIndex])
                            && r.result.paramValue == ScalingToValue(config.normalScaling, pot'.normalTarget))
              && r.state.activeParam == r.result.paramIdx
              && r.state.activeParamValue == TruncToInt(r.result.paramValue)
              && r.state.displayTimeout == displayTimeoutFrames
  {
    var pot := st.pots[potIndex];
    var held := data.buttonHeld[potIndex];
    if !data.potMoved[potIndex] then
      PotStep(st.(pots := st.pots[potIndex := pot.(buttonWasPressed := held)]), PotResult(-1, 0.0, false))
    else
      var potPos := data.pots[potIndex];
      var target := Track(if held then pot.altTarget else pot.normalTarget, pot.lastPotPos, potPos);
      var scaling := if held then config.altScaling else config.normalScaling;
      var param := if held then config.altParam else config.normalParam;
      var value := ScalingToValue(scaling, target);
      var retargeted := if held then pot.(altTarget := target) else pot.(normalTarget := target);
      var pot' := retargeted.(lastPotPos := potPos, buttonWasPressed := held);
      PotStep(TakeoverState(st.pots[potIndex := pot'], param, TruncToInt(value), displayTimeoutFrames),
              PotResult(param, value, true))
  }

  /** processEncoder: a zero delta changes nothing; otherwise the parameter
      moves by delta * step, clamped to [minVal, maxVal], and the display
      shows it. */
  function ProcessEncoder(st: TakeoverState, encoderIndex: nat, data: UiData, paramIdx: int,
                          currentValue: int, minVal: int, maxVal: int, step: int,
                          displayTimeoutFrames: int): (r: EncoderStep)
    requires UiWellFormed(data) && encoderIndex < NUM_ENCODERS
    ensures data.encoders[encoderIndex] == 0 ==> r.newValue.None? && r.state == st
    ensures data.encoders[encoderIndex] != 0 ==>
              && r.newValue.Some?
              && (minVal <= maxVal ==> minVal <= r.newValue.value <= maxVal)
              && (minVal <= currentValue + data.encoders[encoderIndex] * step <= maxVal ==>
                    r.newValue.value == currentValue + data.encoders[encoderIndex] * step)
              && (currentValue + data.encoders[encoderIndex] * step > maxVal ==> r.newValue.value == maxVal)
              && (minVal <= maxVal && currentValue + data.encoders[encoderIndex] * step < minVal ==>
                    r.newValue.value == minVal)
              && (maxVal < minVal ==> r.newValue.value == maxVal)
              && r.state == st.(activeParam := paramIdx, activeParamValue := r.newValue.value,
                                displayTimeout := displayTimeoutFrames)
  {
    var delta := data.encoders[encoderIndex];
    if delta == 0 then EncoderStep(st, None)
    else
      var value := ClampInt(currentValue + delta * step, minVal, maxVal);
      EncoderStep(st.(activeParam := paramIdx, activeParamValue := value,
                      displayTimeout := displayTimeoutFrames), Some(value))
  }

  /** An encoder turned up (down) with a positive step never lowers (raises)
      an in-range value, and never carries it past the end of the range. */
  lemma EncoderMovesTowardTurn(st: TakeoverState, encoderIndex: nat, data: UiData, paramIdx: int,
                               currentValue: int, minVal: int, maxVal: int, step: int, frames: int)
    requires UiWellFormed(data) && encoderIndex < NUM_ENCODERS
    requires data.encoders[encoderIndex] != 0 && step > 0
    requires minVal <= currentValue <= maxVal
    ensures var v := ProcessEncoder(st, encoderIndex, data, paramIdx, currentValue, minVal, maxVal, step, frames).newValue.value;
            && minVal <= v <= maxVal
            && (data.encoders[encoderIndex] > 0 ==> currentValue <= v)
            && (data.encoders[encoderIndex] < 0 ==> v <= currentValue)
  {
  }

  /** With a well-ordered range, the value an encoder turn produces is the
      in-range value nearest to `currentValue + delta * step`. */
  lemma EncoderLandsNearest(st: TakeoverState, encoderIndex: nat, data: UiData, paramIdx: int,
                            currentValue: int, minVal: int, maxVal: int, step: int, frames: int, y: int)
    requires UiWellFormed(data) && encoderIndex < NUM_ENCODERS
    requires data.encoders[encoderIndex] != 0 && minVal <= maxVal
    requires minVal <= y <= maxVal
    ensures var v := ProcessEncoder(st, encoderIndex, data, paramIdx, currentValue, minVal, maxVal, step, frames).newValue.value;
            var wanted := currentValue + data.encoders[encoderIndex] * step;
            minVal <= v <= maxVal && Abs((v - wanted) as real) <= Abs((y - wanted) as real)
  {
  }

  /** decrementDisplayTimeout: a running countdown loses `frames`; an expired
      one is left alone. */
  function DecrementDisplayTimeout(st: TakeoverState, frames: int): (r: TakeoverState)
    ensures !IsDisplayActive(st) ==> r == st
    ensures IsDisplayActive(st) ==> r == st.(displayTimeout := st.displayTimeout - frames)
  {
    if st.displayTimeout > 0 then st.(displayTimeout := st.displayTimeout - frames) else st
  }

  /** `k` UI polls in a row. */
  function Polls(st: TakeoverState, frames: int, k: nat): TakeoverState
    decreases k
  {
    if k == 0 then st else DecrementDisplayTimeout(Polls(st, frames, k - 1), frames)
  }

  lemma {:induction false} PollsCountDown(st: TakeoverState, frames: int, k: nat)
    requires frames > 0
    ensures st.displayTimeout > k * frames ==> Polls(st, frames, k).displayTimeout == st.displayTimeout - k * frames
    ensures st.displayTimeout <= k * frames ==> Polls(st, frames, k).displayTimeout <= 0
    decreases k
  {
    if k > 0 {
      PollsCountDown(st, frames, k - 1);
      assert (k - 1) * frames + frames == k * frames;
    }
  }

  /** The display stays active for exactly as many polls as the countdown
      has whole-or-partial steps of `frames` left. */
  lemma DisplayExpires(st: TakeoverState, frames: int, k: nat)
    requires frames > 0
    ensures IsDisplayActive(Polls(st, frames, k)) <==> st.displayTimeout > k * frames
  {
    PollsCountDown(st, frames, k);
  }

  /** With the default countdown and poll size an edit shows its parameter
      for exactly 375 polls. */
  lemma DefaultDisplayLasts375Polls(st: TakeoverState)
    requires st.displayTimeout == DISPLAY_TIMEOUT_FRAMES
    ensures IsDisplayActive(Polls(st, POLL_FRAMES, 374))
    ensures !IsDisplayActive(Polls(st, POLL_FRAMES, 375))
  {
    DisplayExpires(st, POLL_FRAMES, 374);
    DisplayExpires(st, POLL_FRAMES, 375);
  }

  /** The engine's invariant holds from initialisation through any pot or
      encoder update and any poll, given knob positions in [0,1]. */
  lemma UpdatesKeepTargetsInRange(st: TakeoverState, potIndex: nat, data: UiData, config: PotConfig,
                                  frames: int)
    requires TargetsInRange(st) && UiWellFormed(data) && potIndex < NUM_POTS
    requires InUnit(data.pots[potIndex])
    ensures TargetsInRange(ProcessPot(st, potIndex, data, config, frames).state)
    ensures TargetsInRange(DecrementDisplayTimeout(st, frames))
    ensures forall e, p, c, lo, hi, s :: 0 <= e < NUM_ENCODERS ==>
              TargetsInRange(ProcessEncoder(st, e, data, p, c, lo, hi, s, frames).state)
  {
  }
}

=== FILE: voice.dfy ===
/** The CV part of the per-sample loop in step (src/nt_303.cpp:321-351): a
    Schmitt trigger on the gate input turns its edges into note-on and
    all-notes-off calls, and while the gate is high the pitch and accent
    inputs are forwarded every sample. */
module Voice {
  import opened Base
  import opened Engine

  /** A low gate goes high only above this level ... */
  const GATE_RISE: real := 1.5
  /** ... and a high gate stays high while at or above this one. */
  const GATE_FALL: real := 1.0
  /** Accent CV above this level makes a note accented. */
  const ACCENT_THRESHOLD: real := 2.5
  /** The CV path always triggers this note; pitch comes from the pitch CV. */
  const CV_NOTE: int := 60
  const ACCENT_VELOCITY: int := 127
  const NORMAL_VELOCITY: int := 80

  /** The per-instance gate state: the previous gate level and whether a
      CV-triggered note is sounding. */
  datatype VoiceState = VoiceState(prevGate: bool, cvNoteActive: bool)

  /** One sample of the three CV inputs; None when the input is not routed. */
  datatype CvSample = CvSample(gate: Option<real>, pitch: Option<real>, accent: Option<real>)

  datatype StepOut = StepOut(state: VoiceState, calls: seq<EngineCall>)

  /** The state the instance is constructed with. */
  const INITIAL_VOICE: VoiceState := VoiceState(false, false)

  /** The Schmitt trigger: the new gate level given the previous one. */
  function GateLevel(prevGate: bool, x: real): (high: bool)
    ensures x > GATE_RISE ==> high
    ensures x < GATE_FALL ==> !high
    ensures GATE_FALL <= x <= GATE_RISE ==> high == prevGate
  {
    if prevGate then x >= GATE_FALL else x > GATE_RISE
  }

  /** The note-on velocity: accented iff the accent input is routed and above threshold. */
  function Velocity(accent: Option<real>): (v: int)
    ensures v == ACCENT_VELOCITY <==> accent.Some? && accent.value > ACCENT_THRESHOLD
    ensures v == NORMAL_VELOCITY <==> !(accent.Some? && accent.value > ACCENT_THRESHOLD)
  {
    if accent.Some? && accent.value > ACCENT_THRESHOLD then ACCENT_VELOCITY else NORMAL_VELOCITY
  }

  /** The accent gain sent while the gate is high: the accent CV's excess over
      2.5 as a fraction of 2.5, clamped to [0,1], halved. */
  function AccentGain(accentCv: real): (g: real)
    ensures 0.0 <= g <= 0.5
    ensures accentCv <= ACCENT_THRESHOLD ==> g == 0.0
    ensures accentCv >= 2.0 * ACCENT_THRESHOLD ==> g == 0.5
    ensures ACCENT_THRESHOLD <= accentCv <= 2.0 * ACCENT_THRESHOLD ==>
              g == (accentCv - ACCENT_THRESHOLD) / (2.0 * ACCENT_THRESHOLD)
  {
    var level := ClampReal((accentCv - ACCENT_THRESHOLD) / ACCENT_THRESHOLD, 0.0, 1.0);
    level * 0.5
  }

  /** A rising (falling) edge at this sample. */
  predicate Rises(st: VoiceState, s: CvSample) {
    s.gate.Some? && !st.prevGate && GateLevel(st.prevGate, s.gate.value)
  }

  predicate Falls(st: VoiceState, s: CvSample) {
    s.gate.Some? && st.prevGate && !GateLevel(st.prevGate, s.gate.value)
  }

  /** What a high gate forwards every sample: the pitch CV to the oscillator,
      then the accent gain, each only when its input is routed. */
  function Forward(s: CvSample): (calls: seq<EngineCall>)
    ensures |calls| == (if s.pitch.Some? then 1 else 0) + (if s.accent.Some? then 1 else 0)
    ensures s.pitch.Some? ==> calls[0] == SetOscillatorFrequencyFromCv(s.pitch.value)
    ensures s.accent.Some? ==> calls[|calls| - 1] == SetAccentGain(AccentGain(s.accent.value))
    ensures CountNoteOns(calls) == 0 && CountAllNotesOff(calls) == 0
    ensures forall c :: c in calls ==> c.SetOscillatorFrequencyFromCv? || c.SetAccentGain?
    ensures forall c :: c in calls && c.SetAccentGain? ==> 0.0 <= c.gain <= 0.5
  {
    var freq := if s.pitch.Some? then [SetOscillatorFrequencyFromCv(s.pitch.value)] else [];
    var gain := if s.accent.Some? then [SetAccentGain(AccentGain(s.accent.value))] else [];
    CountsAppend(freq, gain);
    freq + gain
  }

  /** One sample of the gate logic; with no gate input routed nothing happens.
      The calls come in the source's order: note-on, forwarded CVs, all-notes-off. */
  function GateStep(st: VoiceState, s: CvSample): (r: StepOut)
    ensures s.gate.None? ==> r == StepOut(st, [])
    ensures CountNoteOns(r.calls) == (if Rises(st, s) then 1 else 0)
    ensures CountAllNotesOff(r.calls) == (if Falls(st, s) then 1 else 0)
    ensures Rises(st, s) ==> r.calls[0] == NoteOn(CV_NOTE, Velocity(s.accent))
    ensures forall c :: c in r.calls && c.NoteOn? ==> c == NoteOn(CV_NOTE, Velocity(s.accent))
    ensures forall c :: c in r.calls && c.SetAccentGain? ==> 0.0 <= c.gain <= 0.5
    ensures s.gate.Some? ==> r.state.prevGate == GateLevel(st.prevGate, s.gate.value)
    ensures st.cvNoteActive == st.prevGate ==> r.state.cvNoteActive == r.state.prevGate
    ensures s.gate.Some? && GateLevel(st.prevGate, s.gate.value) ==>
              r.calls == (if Rises(st, s) then [NoteOn(CV_NOTE, Velocity(s.accent))] else []) + Forward(s)
    ensures s.gate.Some? && !GateLevel(st.prevGate, s.gate.value) ==>
              r.calls == (if Falls(st, s) then [AllNotesOff] else [])
  {
    if s.gate.None? then StepOut(st, [])
    else if !GateLevel(st.prevGate, s.gate.value) then
      if st.prevGate then StepOut(VoiceState(false, false), [AllNotesOff])
      else StepOut(st, [])
    else if st.prevGate then StepOut(st, Forward(s))
    else
      var on := [NoteOn(CV_NOTE, Velocity(s.accent))];
      CountsAppend(on, Forward(s));
      StepOut(VoiceState(true, true), on + Forward(s))
  }

  /** A block of samples, in order, with all calls concatenated. */
  function Run(st: VoiceState, samples: seq<CvSample>): StepOut
    decreases |samples|
  {
    if |samples| == 0 then StepOut(st, [])
    else
      var first := GateStep(st, samples[0]);
      var rest := Run(first.state, samples[1..]);
      StepOut(rest.state, first.calls + rest.calls)
  }

  /** Edge counts of a block of samples, defined on the gate levels alone. */
  function RisingEdges(st: VoiceState, samples: seq<CvSample>): nat
    decreases |samples|
  {
    if |samples| == 0 then 0
    else (if Rises(st, samples[0]) then 1 else 0) + RisingEdges(GateStep(st, samples[0]).state, samples[1..])
  }

  function FallingEdges(st: VoiceState, samples: seq<CvSample>): nat
    decreases |samples|
  {
    if |samples| == 0 then 0
    else (if Falls(st, samples[0]) then 1 else 0) + FallingEdges(GateStep(st, samples[0]).state, samples[1..])
  }

  /** Over any block, exactly one note-on per rising edge and exactly one
      all-notes-off per falling edge, however many notes sounded between. */
  lemma {:induction false} CallsMatchEdges(st: VoiceState, samples: seq<CvSample>)
    ensures CountNoteOns(Run(st, samples).calls) == RisingEdges(st, samples)
    ensures CountAllNotesOff(Run(st, samples).calls) == FallingEdges(st, samples)
    decreases |samples|
  {
    if |samples| > 0 {
      var first := GateStep(st, samples[0]);
      CallsMatchEdges(first.state, samples[1..]);
      CountsAppend(first.calls, Run(first.state, samples[1..]).calls);
    }
  }

  /** Every sample in the block has a routed gate at or above `level`. */
  predicate GateHeldAbove(samples: seq<CvSample>, level: real) {
    forall i :: 0 <= i < |samples| ==> samples[i].gate.Some? && samples[i].gate.value >= level
  }

  /** Hysteresis: a high gate whose input never drops below 1.0 stays high,
      sends no further note-on and no all-notes-off. */
  lemma {:induction false} HighGateHolds(st: VoiceState, samples: seq<CvSample>)
    requires st.prevGate
    requires GateHeldAbove(samples, GATE_FALL)
    ensures Run(st, samples).state.prevGate
    ensures CountNoteOns(Run(st, samples).calls) == 0
    ensures CountAllNotesOff(Run(st, samples).calls) == 0
    decreases |samples|
  {
    if |samples| > 0 {
      var first := GateStep(st, samples[0]);
      assert GateHeldAbove(samples[1..], GATE_FALL) by {
        forall i | 0 <= i < |samples[1..]|
          ensures samples[1..][i].gate.Some? && samples[1..][i].gate.value >= GATE_FALL
        {
          assert samples[1..][i] == samples[i + 1];
        }
      }
      HighGateHolds(first.state, samples[1..]);
      CountsAppend(first.calls, Run(first.state, samples[1..]).calls);
    }
  }

  /** A gate input that crosses 1.5 once and then never drops below 1.0
      produces exactly one note-on and no all-notes-off, and ends high. */
  lemma {:induction false} CrossingOnceTriggersOnce(samples: seq<CvSample>)
    requires |samples| > 0
    requires samples[0].gate.Some? && samples[0].gate.value > GATE_RISE
    requires GateHeldAbove(samples, GATE_FALL)
    ensures Run(INITIAL_VOICE, samples).state.prevGate
    ensures CountNoteOns(Run(INITIAL_VOICE, samples).calls) == 1
    ensures CountAllNotesOff(Run(INITIAL_VOICE, samples).calls) == 0
  {
    var first := GateStep(INITIAL_VOICE, samples[0]);
    assert GateHeldAbove(samples[1..], GATE_FALL) by {
      forall i | 0 <= i < |samples[1..]|
        ensures samples[1..][i].gate.Some? && samples[1..][i].gate.value >= GATE_FALL
      {
        assert samples[1..][i] == samples[i + 1];
      }
    }
    HighGateHolds(first.state, samples[1..]);
    CountsAppend(first.calls, Run(first.state, samples[1..]).calls);
  }

  /** Chatter rejection: a low gate whose input never exceeds 1.5 stays low
      and sends nothing to the engine. */
  lemma {:induction false} LowGateIgnoresChatter(st: VoiceState, samples: seq<CvSample>)
    requires !st.prevGate
    requires forall i :: 0 <= i < |samples| ==> samples[i].gate.None? || samples[i].gate.value <= GATE_RISE
    ensures !Run(st, samples).state.prevGate
    ensures Run(st, samples).calls == []
    decreases |samples|
  {
    if |samples| > 0 {
      var first := GateStep(st, samples[0]);
      assert forall i :: 0 <= i < |samples[1..]| ==> samples[1..][i] == samples[i + 1];
      LowGateIgnoresChatter(first.state, samples[1..]);
    }
  }

  /** A high gate drops on the very first sample below 1.0, with exactly one
      all-notes-off. */
  lemma HighGateDropsBelowFall(st: VoiceState, s: CvSample)
    requires st.prevGate && s.gate.Some? && s.gate.value < GATE_FALL
    ensures !GateStep(st, s).state.prevGate
    ensures CountAllNotesOff(GateStep(st, s).calls) == 1
  {
  }

  /** A jump from 0 to 2 units with the accent CV at 3 units fires exactly
      one accented note-on. */
  lemma AccentedTriggerScenario()
    ensures var r := GateStep(INITIAL_VOICE, CvSample(Some(2.0), None, Some(3.0)));
            && CountNoteOns(r.calls) == 1
            && r.calls[0] == NoteOn(CV_NOTE, ACCENT_VELOCITY)
  {
  }
}
